=== FILE: README.md ===
# v-network-graph state layer, in Dafny

This project models the state-synchronisation layer of the v-network-graph diagram
renderer (`src/composables/state.ts`). That layer keeps one state record per node and per
edge. Each record holds two interaction flags, `selected` and `hovered`, plus fields derived
from the flags and the graph data: a node's shape, label style and label text, and an edge's
stroke and line position. Six Vue watchers keep the records in step with the graph:

- four flag watchers mirror the `selectedNodes`, `hoveredNodes`, `selectedEdges` and
  `hoveredEdges` sets into the flags;
- two structural watchers create and delete records as node and edge ids come and go.

In the model, Vue reactivity is replaced by explicit transitions. Each watch callback is a
pure function `(stores, new snapshot, previous snapshot) -> stores`, and each `computed`
field is a function of the flags and the data. The collaborators whose code is not in this
model are parameters:

- `Config.values` (style evaluation) and `calculateEdgePosition` (edge geometry) are
  function-valued fields of `Views.Evaluators`;
- style declarations, evaluated styles and the edge-group state are opaque types.

Modules:

- `Graph`: ids, node and edge records, points, and `Elems` (the ids of an enumeration).
- `EdgeGroups`: the opaque edge-group state built by `makeEdgeGroupStates`.
- `Style`: `getNodeShape`, `getEdgeStroke`, the label-text rule, and a reference definition
  of precedence as "first applicable variant of a priority list".
- `EdgePositions`: the endpoint lookup with its origin fallback, then the geometry call.
- `StateStore`: flags, per-entity stores, and the `Mirrors` relation between flags and a set.
- `FlagSync`: the shared diff rule of the four flag watchers.
- `StructuralSync`: the add and remove loops of the two id-set watchers.
- `Watchers`: initial population, the six watchers, and an `Engine` that replays any
  history of changes. On the engine, structural completeness and flag mirroring are proved.
- `Views`: the observable node and edge states, with their derived fields.

Three behaviours of the code differ from what one might expect. The model follows the code:

- Edges prefer selection over hover, as intended, but `getEdgeStroke` uses the `selected`
  variant whenever the edge is selected. It never checks that the variant is declared
  (`Style.EdgeStrokeUncheckedSelected`). Nodes check both variants.
- A node or edge added after startup always starts unselected and unhovered, even when its
  id is already in the selected or hovered set. So "flags mirror the sets" only survives
  histories that never add an already flagged id (`Watchers.AddedNodeStartsUnflagged`,
  `Watchers.RunKeepsMirrored`).
- The edge-group state is built once, at startup. Edges added later are not registered
  into it (`Watchers.OnEdgeIds` and `Watchers.RunKeepsComplete` leave `groups` unchanged).

## Model

| member | source | states |
|---|---|---|
| `Style.NodeShape` | src/composables/state.ts:42-50 | the node shape is the evaluation of the first applicable variant of the priority list [hover, selected], falling back to normal; a variant applies when its flag is set and it is declared |
| `Style.NodeShapeUsesDeclaredVariant` | src/composables/state.ts:42-50 | the node style evaluator is only ever handed a declared variant |
| `Style.EdgeStroke` | src/composables/state.ts:52-60 | the edge stroke is the evaluation of the first applicable variant of [selected, hover], falling back to normal; `selected` applies whenever the edge is selected, declared or not |
| `Style.EdgeStrokeUncheckedSelected` | src/composables/state.ts:53-54 | a selected edge without a `selected` variant hands the evaluator an absent declaration instead of falling back to hover or normal |
| `Style.PrecedenceIsOpposite` | src/composables/state.ts:42-60 | with both flags set and all variants declared, a node shows its hover variant and an edge its selected variant |
| `Style.LabelText` | src/composables/state.ts:74-80 | with a formatting function, the label text is the evaluated label's `text`; with an attribute name, it is the node attribute that the evaluated `text` names when present, and it is "" unless that attribute is present |
| `Style.LabelTextResolution` | src/composables/state.ts:74-79 | assuming `Config.values` gives the evaluated label a `text` that is the formatting function's value on the node, or the attribute name itself when a name is configured (the lemma's requires; `Config.values` is not part of this model): with a formatting function, the label text is that function's value on the node; with an attribute name, it is that attribute of the node, or "" when the node lacks it |
| `Views.NodeStateOf` | src/composables/state.ts:70-80 | a node state read through its computed fields carries the stored flags, the shape chosen by hover-over-selected precedence, the evaluated label, and the label text by the label-text rule |
| `Views.EdgeStateOf` | src/composables/state.ts:94-102 | an edge state read through its computed fields carries the stored flags, the stroke chosen by selected-over-hover precedence, and the geometry applied to the endpoints' layout positions, with the origin for a missing one |
| `Views.LabelIgnoresFlags` | src/composables/state.ts:73-80 | the label style and label text of a node do not depend on its flags |
| `Views.BothFlagsScenario` | src/composables/state.ts:72-101 | on the observable states, a node that is selected and hovered shows its hover shape, and such an edge shows its selected stroke |
| `EdgePositions.EndpointsAsWritten` | src/composables/state.ts:98-100 | as written, an existing edge's ends are its nodes' layout positions or the origin; a missing edge reads both ends from the layout entry under "undefined", or the origin when there is none |
| `EdgePositions.Endpoints` | src/composables/state.ts:97-101 | each end of an edge line is its node's layout position when the edge and that position exist, and the origin otherwise; a missing edge gives the origin at both ends; the lookup never fails |
| `EdgePositions.EndpointsAgreeUnlessUndefinedKey` | src/composables/state.ts:98-100 | the lookup as written agrees with the intended one exactly when the edge exists, or the layout has no position other than the origin under the key "undefined" |
| `EdgePositions.MissingEdgeReadsUndefinedNode` | src/composables/state.ts:98-100 | as written, a missing edge whose layout has a node named "undefined" at (1, 2) gets both ends at (1, 2), not at the origin |
| `EdgePositions.EdgePosition` | src/composables/state.ts:97-102 | an existing edge's line is the geometry applied to its nodes' layout positions (the origin for a missing one) and the scale; this agrees with the lookup as written whenever the edge exists or the layout has no entry under "undefined" |
| `EdgePositions.DanglingEndpointAtOrigin` | src/composables/state.ts:97-101 | an edge whose target (source) has no layout position is passed to the geometry with that end at the origin; with the corrected lookup, a missing edge is passed with both ends there |
| `FlagSync.Without` | src/composables/state.ts:131-132 | `xs.filter(n => !ys.includes(n))` holds exactly the ids of xs that are not in ys |
| `FlagSync.SetFlagEach` | src/composables/state.ts:133-140 | after the `forEach`, every listed id that has a state has the flag set to the value; other states are unchanged; no state is created or deleted |
| `FlagSync.SyncFlag` | src/composables/state.ts:130-141 | ids in the new snapshot but not the previous one end with the flag true; ids in the previous snapshot but not the new one end with it false; every other state and the key set are unchanged; the other flag is never touched |
| `FlagSync.SyncFlagMirrors` | src/composables/state.ts:128-142 | flags that mirrored the previous snapshot mirror the new one after the watcher runs |
| `FlagSync.ReplayFlagMirrors` | src/composables/state.ts:128-142 | over any history of snapshots of one interaction set, flags that mirror the first snapshot mirror the last one, and no state is created or deleted |
| `StructuralSync.AddStates` | src/composables/state.ts:165-170 | every id of the new id set missing from the previous one gets a fresh unselected, unhovered state; all other states are unchanged |
| `StructuralSync.RemoveNodes` | src/composables/state.ts:172-180 | the ids of the previous set missing from the new one are deleted from the layout positions, both node interaction sets and the node states, and nothing else changes |
| `StructuralSync.RemoveEdges` | src/composables/state.ts:265-271 | the ids of the previous set missing from the new one are deleted from both edge interaction sets and the edge states, and nothing else changes |
| `Watchers.CreateEach` | src/composables/state.ts:123-125 | the `forEach` over the initial ids creates one state per id, selected exactly when the id is in the selected set, never hovered |
| `Watchers.ProvideStates` | src/composables/state.ts:116-203 | after startup there is exactly one node state per node id and one edge state per edge id, each selected exactly when its id is in the selected set and not hovered; the interaction sets and layout are untouched; the edge groups are the initial ones |
| `Watchers.ProvideStatesMirrors` | src/composables/state.ts:123-125 | at startup the selected flags mirror the selected sets, and the hovered flags mirror the hovered sets exactly when no initial id is hovered |
| `Watchers.OnSelectedNodes` | src/composables/state.ts:128-142 | the diff rule applied to the node `selected` flags; nothing else changes |
| `Watchers.OnHoveredNodes` | src/composables/state.ts:145-159 | the diff rule applied to the node `hovered` flags; nothing else changes |
| `Watchers.OnSelectedEdges` | src/composables/state.ts:206-220 | the diff rule applied to the edge `selected` flags; nothing else changes |
| `Watchers.OnHoveredEdges` | src/composables/state.ts:223-243 | the diff rule applied to the edge `hovered` flags; nothing else changes |
| `Watchers.OnNodeIds` | src/composables/state.ts:162-182 | node state keys become (old keys plus appeared ids) minus vanished ids, so they equal the new id set when the old keys equalled the previous one; appeared ids get fresh states, the rest keep theirs; vanished ids leave the layout and both node interaction sets; no layout entry is added; edges and edge groups are untouched |
| `Watchers.OnEdgeIds` | src/composables/state.ts:246-273 | edge state keys follow the same add/remove rule; appeared ids get fresh states; vanished ids leave both edge interaction sets; nodes, layout and edge groups are untouched, so new edges are not registered into a group |
| `Watchers.RemovingAbsentNodesIsNoOp` | src/composables/state.ts:173-180 | when no id appears and the vanished ids have no state and are in no node interaction set, the node states and both node interaction sets are unchanged (their layout entries are still deleted) |
| `Watchers.AddedNodeStartsUnflagged` | src/composables/state.ts:165-170 | a node id that appears while already selected (hovered) gets an unselected (unhovered) state and stays in the set, so its flag no longer mirrors the set |
| `Watchers.AddedEdgeStartsUnflagged` | src/composables/state.ts:249-263 | the same for an edge id and the edge interaction sets |
| `Watchers.OnNodeIdsKeepsMirrors` | src/composables/state.ts:162-182 | when no appearing node id is already selected or hovered, the node watcher keeps the node flags mirroring the node interaction sets |
| `Watchers.OnEdgeIdsKeepsMirrors` | src/composables/state.ts:246-273 | the same for the edge watcher and the edge interaction sets |
| `Watchers.Start` | src/composables/state.ts:116-203 | right after startup there is one state per current node id and per current edge id, each watcher holds its source's initial value, and each flag watcher's snapshot holds exactly the interaction set it watches |
| `Watchers.NodeIdsStep` | src/composables/state.ts:128-182 | the node id-set watcher runs, and then the selected and hovered node watchers, which see their sets lose the vanished ids: their snapshots become the old ones minus the vanished ids, and the stores end exactly as the node id-set watcher left them (the re-run watchers change no flag); the other snapshots are kept |
| `Watchers.EdgeIdsStep` | src/composables/state.ts:206-273 | the same for the edge id-set watcher and the selected and hovered edge watchers |
| `Watchers.Step` | src/composables/state.ts:128-273 | an id-set change runs its structural watcher and then the flag watchers of the two sets it shrank, as above; an interaction-set change leaves the stores exactly as that set replaced by the new contents and then its flag watcher run against its last snapshot (so nothing else in the stores changes), records the new snapshot, leaves the other five and keeps both key sets; no change adds a layout entry or alters the edge groups |
| `Watchers.StepKeepsComplete` | src/composables/state.ts:128-273 | each of the six watchers keeps the state key sets equal to the current id sets |
| `Watchers.RunKeepsComplete` | src/composables/state.ts:128-273 | after any history of additions, removals, selection and hover changes, the node (edge) states are exactly the current node (edge) ids; no layout entry is gained; the edge groups never change |
| `FlagSync.DroppingStatelessIdsIsNoOp` | src/composables/state.ts:130-141 | a flag watcher that sees its set lose only ids without a state changes no state |
| `Watchers.StepKeepsSettled` | src/composables/state.ts:128-273 | after every change, each flag watcher's snapshot holds exactly the interaction set it watches, the deletions of the structural watchers included |
| `Watchers.RunKeepsSettled` | src/composables/state.ts:128-273 | along any history, each flag watcher's snapshot stays equal to the interaction set it watches |
| `Watchers.StartIsMirrored` | src/composables/state.ts:123-125 | when no initial id is hovered, the engine starts with every flag mirroring the application's interaction sets |
| `Watchers.StepKeepsMirrored` | src/composables/state.ts:128-273 | from a state whose snapshots equal their sets, each change keeps every flag mirroring the application's interaction sets, unless it adds an id the application already holds as selected or hovered |
| `Watchers.RunKeepsMirrored` | src/composables/state.ts:128-273 | from a state whose snapshots equal their sets, along any history that never adds an id the application already holds as selected or hovered, `selected` and `hovered` of every state equal membership of its id in the sets the application holds |
| `Watchers.ReselectingReturnedNode` | src/composables/state.ts:128-182 | a node that is selected at startup, vanishes, comes back and is selected again ends selected, with its state's `selected` flag set |

## Left out

- Vue reactivity (`computed`, `watch`, `reactive`, `unref`): lazy memoisation and the
  batching of changes into one flush are runtime behaviour. Each change is followed at once by
  its own watcher. After an id-set watcher, the watchers of the selected and hovered sets it
  deleted from run next. A watcher that never fires because its source did not change is
  modelled as running with an unchanged snapshot, which changes nothing.
- `provide`/`inject` and `useStates` (src/composables/state.ts:275-282): dependency-injection
  plumbing.
- `Config.values`, `makeEdgeGroupStates` and `calculateEdgePosition`: their code is not part
  of this model. They are parameters or opaque values. Edge grouping itself (parallel and
  anti-parallel offsets, scale compensation, self-loops, summarised edges) is therefore not
  modelled either.
- Coordinates and scale are reals that are passed through and never computed with.
- Node attributes are modelled as strings. A non-string attribute read as label text, and
  `null` attribute values (which `??` also replaces by ""), are not distinguished from absence.
- Views.NodeStateOf: takes the node record itself, so reading the derived fields of a state
  whose node has already been deleted is not modelled (in the source, the label text read
  would throw there).
- EdgePositions.EdgePosition: uses the corrected endpoint lookup of the finding below, so for a
  missing edge it does not pass the layout entry under "undefined" that the source passes.
- EdgePositions.DanglingEndpointAtOrigin: its missing-edge clause is stated of the corrected
  lookup; as written, a missing edge reads the entry under "undefined"
  (`EdgePositions.EndpointsAsWritten`).
- JavaScript objects are modelled as maps, so a property read sees only own keys. Ids and
  attribute names that name members inherited from `Object.prototype` ("constructor",
  "toString", ...) are not modelled. For such keys, `layouts[id]` and `nodes[id][name]` return
  the inherited member, so the `??` fallbacks to the origin and to "" do not apply.
- Views.EdgeStateOf: requires the edge record to exist, because the stroke of a missing edge is
  `Config.values` applied to `undefined`, whose result is not part of this model. The position
  of a missing edge as the source computes it is modelled (`EdgePositions.EndpointsAsWritten`);
  the model itself uses the corrected lookup (`EdgePositions.Endpoints`).
- Watchers.RunKeepsMirrored: requires histories that never add an id that the application
  holds as selected or hovered at that moment, because the code gives such an id an unflagged
  state (`Watchers.AddedNodeStartsUnflagged`).
- Event emission: no event is emitted by the modelled code.
- src/entry.esm.ts, src/components/index.ts and src/components/layouts/handler.ts: plugin
  installation, re-exports and a behaviour-free interface.

## Findings

| source | as written | input that shows it | evidently intended | confidence | as-written member | corrected member |
|---|---|---|---|---|---|---|
| src/composables/state.ts:99-100 | `layouts[edge?.source] ?? { x: 0, y: 0 }`: with the edge missing, `edge?.source` is `undefined`, and indexing an object by `undefined` reads the key "undefined" | edge "e1" missing from `edges`, and `layouts.nodes = { "undefined": { x: 1, y: 2 } }`: both ends are read as (1, 2) (`EdgePositions.MissingEdgeReadsUndefinedNode`) | a missing edge has both ends at the origin | low (needs a node literally named "undefined"); not executed | `EdgePositions.EndpointsAsWritten` | `EdgePositions.Endpoints` |

=== FILE: edgegroups.dfy ===
/** The edge-group state: edges grouped by their unordered endpoint pair, built once by
    `makeEdgeGroupStates`. Its contents and construction are not part of this model. */
module EdgeGroups {

  type EdgeGroupStates
}

=== FILE: flagsync.dfy ===
/** The four flag watchers (selected / hovered, of nodes / of edges) share one rule: diff the new
    snapshot of an interaction set against the previous one and set the flag of every added id
    and clear it for every removed id, skipping ids that have no state. */
module FlagSync {
  import opened Graph
  import opened StateStore

  /** `xs.filter(n => !ys.includes(n))`. */
  function Without(xs: seq<Id>, ys: seq<Id>): (r: seq<Id>)
    ensures forall id :: id in r <==> id in xs && id !in ys
    ensures |r| <= |xs|
    decreases |xs|
  {
    if |xs| == 0 then []
    else if xs[0] in ys then Without(xs[1..], ys)
    else [xs[0]] + Without(xs[1..], ys)
  }

  /** `ids.forEach(id => { const state = states[id]; if (state && state[flag] != value) state[flag] = value })`. */
  function SetFlagEach(states: map<Id, Flags>, ids: seq<Id>, flag: Flag, value: bool): (r: map<Id, Flags>)
    ensures r.Keys == states.Keys
    ensures forall id | id in r :: r[id] == if id in ids then states[id].With(flag, value) else states[id]
    decreases |ids|
  {
    if |ids| == 0 then states
    else
      var id := ids[0];
      var next := if id in states && states[id].Get(flag) != value then states[id := states[id].With(flag, value)] else states;
      SetFlagEach(next, ids[1..], flag, value)
  }

  /** `after` is `before` with the diff from `prev` to `next` applied to flag `flag`: ids new in
      `next` set, ids gone from `prev` cleared, every other state and the key set untouched. */
  ghost predicate DiffApplied(before: map<Id, Flags>, after: map<Id, Flags>, flag: Flag, next: seq<Id>, prev: seq<Id>) {
    && after.Keys == before.Keys
    && (forall id | id in after && id in next && id !in prev :: after[id] == before[id].With(flag, true))
    && (forall id | id in after && id in prev && id !in next :: after[id] == before[id].With(flag, false))
    && (forall id | id in after && (id in next <==> id in prev) :: after[id] == before[id])
  }

  /** One flag watcher: `append` = next minus prev is set, then `removed` = prev minus next is cleared. */
  function SyncFlag(states: map<Id, Flags>, flag: Flag, next: seq<Id>, prev: seq<Id>): (r: map<Id, Flags>)
    ensures DiffApplied(states, r, flag, next, prev)
  {
    var append := Without(next, prev);
    var removed := Without(prev, next);
    SetFlagEach(SetFlagEach(states, append, flag, true), removed, flag, false)
  }

  /** If the flag mirrored the previous snapshot, it mirrors the new one after the watcher runs. */
  lemma SyncFlagMirrors(states: map<Id, Flags>, flag: Flag, next: seq<Id>, prev: seq<Id>)
    requires Mirrors(states, flag, Elems(prev))
    ensures Mirrors(SyncFlag(states, flag, next, prev), flag, Elems(next))
  {
  }

  /** Re-running a watcher after ids without a state left its set changes nothing: the ids it
      sees removed have no state to clear, and no id is new. */
  lemma DroppingStatelessIdsIsNoOp(states: map<Id, Flags>, flag: Flag, prev: seq<Id>, gone: seq<Id>)
    requires forall id | id in gone :: id !in states
    ensures SyncFlag(states, flag, Without(prev, gone), prev) == states
  {
  }

  /** A flag watcher run over successive snapshots `snaps[0]`, `snaps[1]`, ... of one interaction set. */
  function ReplayFlag(states: map<Id, Flags>, flag: Flag, snaps: seq<seq<Id>>): map<Id, Flags>
    decreases |snaps|
  {
    if |snaps| < 2 then states
    else ReplayFlag(SyncFlag(states, flag, snaps[1], snaps[0]), flag, snaps[1..])
  }

  /** Flag mirroring over any history of an interaction set: flags that mirror the first snapshot
      mirror the last one, and no state is created or deleted on the way. */
  lemma {:induction false} ReplayFlagMirrors(states: map<Id, Flags>, flag: Flag, snaps: seq<seq<Id>>)
    requires |snaps| > 0
    requires Mirrors(states, flag, Elems(snaps[0]))
    ensures ReplayFlag(states, flag, snaps).Keys == states.Keys
    ensures Mirrors(ReplayFlag(states, flag, snaps), flag, Elems(snaps[|snaps| - 1]))
    decreases |snaps|
  {
    if |snaps| >= 2 {
      var next := SyncFlag(states, flag, snaps[1], snaps[0]);
      SyncFlagMirrors(states, flag, snaps[1], snaps[0]);
      ReplayFlagMirrors(next, flag, snaps[1..]);
    }
  }
}

=== FILE: graph.dfy ===
/** The graph data the state layer reads: ids, node and edge records, and points of the plane. */
module Graph {

  /** Node and edge ids are strings (keys of the `nodes` / `edges` records). */
  type Id = string

  /** A node's open-ended attribute record. Only string-valued attributes are read, as label text. */
  datatype Node = Node(attrs: map<string, string>)

  /** An edge joins the node `source` to the node `target`; the other attributes are open-ended. */
  datatype Edge = Edge(source: Id, target: Id, attrs: map<string, string>)

  /** A point of the drawing plane. The model never computes with coordinates. */
  datatype Point = Point(x: real, y: real)

  /** `{ x: 0, y: 0 }`, the fallback for an endpoint without a layout position. */
  const Origin: Point := Point(0.0, 0.0)

  /** Where the two ends of a rendered edge line lie. */
  datatype LinePosition = LinePosition(source: Point, target: Point)

  type Nodes = map<Id, Node>
  type Edges = map<Id, Edge>

  /** Layout positions by node id (`layouts.nodes`), owned by the active layout strategy. */
  type Positions = map<Id, Point>

  /** The ids an enumeration holds: an array snapshot such as `[...selectedNodes]`, or the
      iteration order of a `Set`. */
  function Elems(ids: seq<Id>): set<Id> {
    set id | id in ids
  }
}

=== FILE: positions.dfy ===
/** Where an edge's line is drawn: the lookup of its endpoints' layout positions, with the
    origin as fallback, handed to the edge-group geometry (`calculateEdgePosition`, a parameter). */
module EdgePositions {
  import opened Wrappers
  import opened Graph
  import opened EdgeGroups

  /** The geometry routine: group state, edge id, source point, target point and view scale
      to the line's two ends. */
  type Geometry = (EdgeGroupStates, Id, Point, Point, real) -> LinePosition

  /** JavaScript property-key conversion: indexing an object by `undefined` reads the key "undefined". */
  function PropertyKey(key: Option<Id>): string {
    match key
    case Some(k) => k
    case None => "undefined"
  }

  /** `positions[key] ?? { x: 0, y: 0 }`. */
  function PositionOr(positions: Positions, key: string): Point {
    if key in positions then positions[key] else Origin
  }

  /** The endpoints as written: `layouts[edge?.source] ?? origin`, and likewise for the target.
      With the edge missing, `edge?.source` is `undefined` and the lookup key is "undefined". */
  function EndpointsAsWritten(edges: Edges, id: Id, positions: Positions): (r: (Point, Point))
    ensures id in edges ==> r == (PositionOr(positions, edges[id].source), PositionOr(positions, edges[id].target))
    ensures id !in edges ==> r.0 == r.1 == PositionOr(positions, "undefined")
  {
    var edge := if id in edges then Some(edges[id]) else None;
    var source := PositionOr(positions, PropertyKey(if edge.Some? then Some(edge.value.source) else None));
    var target := PositionOr(positions, PropertyKey(if edge.Some? then Some(edge.value.target) else None));
    (source, target)
  }

  /** A layout holding a node named "undefined" moves a missing edge's ends off the origin. */
  lemma MissingEdgeReadsUndefinedNode()
    ensures EndpointsAsWritten(map[], "e1", map["undefined" := Point(1.0, 2.0)]) == (Point(1.0, 2.0), Point(1.0, 2.0))
    ensures EndpointsAsWritten(map[], "e1", map["undefined" := Point(1.0, 2.0)]).0 != Origin
  {
  }

  /** The endpoints as intended: each end is its node's layout position when the edge and that
      position exist, and the origin otherwise. Never fails. */
  function Endpoints(edges: Edges, id: Id, positions: Positions): (r: (Point, Point))
    ensures id !in edges ==> r == (Origin, Origin)
    ensures id in edges && edges[id].source in positions ==> r.0 == positions[edges[id].source]
    ensures id in edges && edges[id].source !in positions ==> r.0 == Origin
    ensures id in edges && edges[id].target in positions ==> r.1 == positions[edges[id].target]
    ensures id in edges && edges[id].target !in positions ==> r.1 == Origin
  {
    if id in edges then
      (PositionOr(positions, edges[id].source), PositionOr(positions, edges[id].target))
    else (Origin, Origin)
  }

  /** The two lookups differ exactly when the edge is missing and "undefined" has a position other
      than the origin. */
  lemma EndpointsAgreeUnlessUndefinedKey(edges: Edges, id: Id, positions: Positions)
    ensures Endpoints(edges, id, positions) == EndpointsAsWritten(edges, id, positions)
        <==> (id in edges || "undefined" !in positions || positions["undefined"] == Origin)
  {
  }

  /** `state.position` of an edge: the geometry applied to the endpoints and the scale. The
      endpoints come from the corrected lookup `Endpoints`; they differ from the source's only for
      a missing edge when the layout has a node named "undefined". */
  function EdgePosition(edges: Edges, id: Id, positions: Positions, groups: EdgeGroupStates,
                        scale: real, geometry: Geometry): (r: LinePosition)
    ensures id in edges ==>
      r == geometry(groups, id, PositionOr(positions, edges[id].source), PositionOr(positions, edges[id].target), scale)
    ensures id in edges || "undefined" !in positions ==>
      r == geometry(groups, id, EndpointsAsWritten(edges, id, positions).0, EndpointsAsWritten(edges, id, positions).1, scale)
  {
    var (source, target) := Endpoints(edges, id, positions);
    geometry(groups, id, source, target, scale)
  }

  /** Dangling references are safe: an edge whose target has no position is laid out with its
      target at the origin, and a missing edge with both ends there. */
  lemma DanglingEndpointAtOrigin(edges: Edges, id: Id, positions: Positions, groups: EdgeGroupStates,
                                 scale: real, geometry: Geometry)
    ensures id in edges && edges[id].target !in positions ==>
      EdgePosition(edges, id, positions, groups, scale, geometry)
        == geometry(groups, id, PositionOr(positions, edges[id].source), Origin, scale)
    ensures id in edges && edges[id].source !in positions ==>
      EdgePosition(edges, id, positions, groups, scale, geometry)
        == geometry(groups, id, Origin, PositionOr(positions, edges[id].target), scale)
    ensures id !in edges ==>
      EdgePosition(edges, id, positions, groups, scale, geometry) == geometry(groups, id, Origin, Origin, scale)
  {
  }
}

=== FILE: stores.dfy ===
/** The records the state layer keeps: per-entity interaction flags, the interaction sets,
    the layout positions and the edge-group state. */
module StateStore {
  import opened Graph
  import opened EdgeGroups

  datatype Flag = SelectedFlag | HoveredFlag

  /** The settable part of a node or edge state; its style and position fields are derived
      from these flags and the graph data (module Views). */
  datatype Flags = Flags(selected: bool, hovered: bool) {

    function Get(f: Flag): bool {
      match f
      case SelectedFlag => selected
      case HoveredFlag => hovered
    }

    /** These flags with `f` set to `b`. */
    function With(f: Flag, b: bool): (r: Flags)
      ensures r.Get(f) == b
      ensures forall g: Flag | g != f :: r.Get(g) == Get(g)
    {
      match f
      case SelectedFlag => this.(selected := b)
      case HoveredFlag => this.(hovered := b)
    }
  }

  /** A state created after startup: neither selected nor hovered. */
  const Fresh: Flags := Flags(false, false)

  /** One kind of entity: its states by id and the application's two interaction sets. */
  datatype EntityStore = EntityStore(states: map<Id, Flags>, selected: set<Id>, hovered: set<Id>) {

    /** The store with the ids `gone` deleted from the states and both interaction sets. */
    function Forget(gone: set<Id>): EntityStore {
      EntityStore(states - gone, selected - gone, hovered - gone)
    }
  }

  /** Everything the watch handlers read or write. */
  datatype Stores = Stores(nodes: EntityStore, edges: EntityStore, positions: Positions, groups: EdgeGroupStates)

  /** The flag `flag` of every state says whether its id is in `members`. */
  ghost predicate Mirrors(states: map<Id, Flags>, flag: Flag, members: set<Id>) {
    forall id | id in states :: states[id].Get(flag) <==> id in members
  }
}

=== FILE: structural.dfy ===
/** The two id-set watchers' loops: create a fresh state for every id that appeared, and scrub
    every id that disappeared from the states, the interaction sets and (for nodes) the layout. */
module StructuralSync {
  import opened Graph
  import opened StateStore

  /** The ids present in `idSet` and not in `prev`. */
  function Added(idSet: seq<Id>, prev: seq<Id>): set<Id> {
    Elems(idSet) - Elems(prev)
  }

  /** The ids present in `prev` and not in `idSet`. */
  function Gone(idSet: seq<Id>, prev: seq<Id>): set<Id> {
    Elems(prev) - Elems(idSet)
  }

  /** `for (const id of idSet) { if (prev.has(id)) continue; create state(id, false, false) }`.
      Creating overwrites any state already stored under the id. */
  function AddStates(states: map<Id, Flags>, idSet: seq<Id>, prev: seq<Id>): (r: map<Id, Flags>)
    ensures r.Keys == states.Keys + Added(idSet, prev)
    ensures forall id | id in r :: r[id] == if id in idSet && id !in prev then Fresh else states[id]
    decreases |idSet|
  {
    if |idSet| == 0 then states
    else
      var id := idSet[0];
      var next := if id in prev then states else states[id := Fresh];
      AddStates(next, idSet[1..], prev)
  }

  /** The node removal loop: every id of `prev` missing from `idSet` is deleted from the layout
      positions, both node interaction sets and the node states; nothing else changes. */
  function RemoveNodes(s: Stores, prev: seq<Id>, idSet: seq<Id>): (r: Stores)
    ensures r == s.(positions := s.positions - Gone(idSet, prev), nodes := s.nodes.Forget(Gone(idSet, prev)))
    decreases |prev|
  {
    if |prev| == 0 then s
    else
      var id := prev[0];
      var next := if id in idSet then s else s.(positions := s.positions - {id}, nodes := s.nodes.Forget({id}));
      RemoveNodes(next, prev[1..], idSet)
  }

  /** The edge removal loop: every id of `prev` missing from `idSet` is deleted from both edge
      interaction sets and the edge states; the layout and the nodes are untouched. */
  function RemoveEdges(s: Stores, prev: seq<Id>, idSet: seq<Id>): (r: Stores)
    ensures r == s.(edges := s.edges.Forget(Gone(idSet, prev)))
    decreases |prev|
  {
    if |prev| == 0 then s
    else
      var id := prev[0];
      var next := if id in idSet then s else s.(edges := s.edges.Forget({id}));
      RemoveEdges(next, prev[1..], idSet)
  }
}

=== FILE: style.dfy ===
/** Style precedence and label text: which declared variant an entity's flags select, and
    how a node's label text is obtained. Evaluating a variant (`Config.values`) is a parameter. */
module Style {
  import opened Wrappers
  import opened Graph

  /** A declared shape variant, before evaluation against a node. */
  type ShapeVariant
  /** An evaluated node shape style. */
  type ShapeStyle
  /** A declared edge stroke variant, before evaluation against an edge. */
  type StrokeVariant
  /** An evaluated edge stroke style. */
  type StrokeStyle
  /** The declared label style fields other than `text`. */
  type LabelLook
  /** The evaluated label style fields other than `text`. */
  type LabelLookStyle

  datatype Variant = Normal | Hover | Selected

  /** A style declaration: a `normal` variant and optional `hover` and `selected` ones. */
  datatype StyleConfig<V> = StyleConfig(normal: V, hover: Option<V>, selected: Option<V>) {

    /** The declaration of variant `v`; `None` when it is not declared. */
    function Get(v: Variant): Option<V> {
      match v
      case Normal => Some(normal)
      case Hover => hover
      case Selected => selected
    }
  }

  /** `label.text` is either a formatting function of the node or the name of an attribute. */
  datatype TextSpec = TextFunction(format: Node -> string) | TextField(name: string)

  datatype LabelConfig = LabelConfig(text: TextSpec, look: LabelLook)

  /** An evaluated label style, `Config.values(config.label, node)`. */
  datatype LabelStyle = LabelStyle(text: string, look: LabelLookStyle)

  datatype NodeConfig = NodeConfig(shape: StyleConfig<ShapeVariant>, labelConfig: LabelConfig)

  type EdgeConfig = StyleConfig<StrokeVariant>

  // ---------------------------------------------------------------------------
  // A reference definition of precedence: the first applicable variant of a priority list
  // ---------------------------------------------------------------------------

  /** Whether the interaction flags ask for variant `v`; `normal` is always asked for. */
  predicate Requested(v: Variant, selected: bool, hovered: bool) {
    match v
    case Normal => true
    case Hover => hovered
    case Selected => selected
  }

  /** `v` is asked for by the flags and counts as declared. */
  predicate Applicable(v: Variant, selected: bool, hovered: bool, declared: Variant -> bool) {
    Requested(v, selected, hovered) && declared(v)
  }

  /** The position of the first applicable variant of `order`; `|order|` when none applies. */
  function FirstApplicableIndex(order: seq<Variant>, selected: bool, hovered: bool, declared: Variant -> bool): (i: nat)
    ensures i <= |order|
    ensures i < |order| ==> Applicable(order[i], selected, hovered, declared)
    ensures forall j | 0 <= j < i :: !Applicable(order[j], selected, hovered, declared)
    decreases |order|
  {
    if |order| == 0 then 0
    else if Applicable(order[0], selected, hovered, declared) then 0
    else 1 + FirstApplicableIndex(order[1..], selected, hovered, declared)
  }

  /** The first applicable variant of `order`, and `Normal` when none applies. */
  function FirstApplicable(order: seq<Variant>, selected: bool, hovered: bool, declared: Variant -> bool): Variant {
    var i := FirstApplicableIndex(order, selected, hovered, declared);
    if i < |order| then order[i] else Normal
  }

  /** Nodes: hover wins over selection. */
  const NodePriority: seq<Variant> := [Hover, Selected]

  /** Edges: selection wins over hover. */
  const EdgePriority: seq<Variant> := [Selected, Hover]

  // ---------------------------------------------------------------------------
  // The source's rules
  // ---------------------------------------------------------------------------

  /** `getNodeShape`: hover variant when hovered and declared, else selected variant when
      selected and declared, else normal. That is, the first applicable variant of
      [hover, selected], a variant applying when its flag is set and it is declared. */
  function NodeShape(node: Node, selected: bool, hovered: bool, cfg: StyleConfig<ShapeVariant>,
                     values: (Option<ShapeVariant>, Node) -> ShapeStyle): (r: ShapeStyle)
    ensures r == values(cfg.Get(FirstApplicable(NodePriority, selected, hovered, v => cfg.Get(v).Some?)), node)
  {
    if hovered && cfg.hover.Some? then values(cfg.hover, node)
    else if selected && cfg.selected.Some? then values(cfg.selected, node)
    else values(Some(cfg.normal), node)
  }

  /** `getEdgeStroke`: selected variant whenever selected (its presence is not checked), else
      hover variant when hovered and declared, else normal. That is, the first applicable
      variant of [selected, hover], where `selected` counts as declared whether or not it is. */
  function EdgeStroke(edge: Edge, selected: bool, hovered: bool, cfg: EdgeConfig,
                      values: (Option<StrokeVariant>, Edge) -> StrokeStyle): (r: StrokeStyle)
    ensures r == values(cfg.Get(FirstApplicable(EdgePriority, selected, hovered, v => v == Selected || cfg.Get(v).Some?)), edge)
  {
    if selected then values(cfg.selected, edge)
    else if hovered && cfg.hover.Some? then values(cfg.hover, edge)
    else values(Some(cfg.normal), edge)
  }

  /** The label text rule of `createNodeState`: with a formatting function the evaluated label's
      `text`; otherwise the attribute that `text` names, or "" when the node lacks it. */
  function LabelText(node: Node, cfg: LabelConfig, evaluated: LabelStyle): (r: string)
    ensures cfg.text.TextFunction? ==> r == evaluated.text
    ensures cfg.text.TextField? && evaluated.text in node.attrs ==> r == node.attrs[evaluated.text]
    ensures cfg.text.TextField? && r != "" ==> evaluated.text in node.attrs
  {
    match cfg.text
    case TextFunction(_) => evaluated.text
    case TextField(_) => if evaluated.text in node.attrs then node.attrs[evaluated.text] else ""
  }

  /** What evaluating `label.text` yields when the function is applied and a name is kept. */
  function ResolvedText(spec: TextSpec, node: Node): string {
    match spec
    case TextFunction(format) => format(node)
    case TextField(name) => name
  }

  // ---------------------------------------------------------------------------
  // Properties
  // ---------------------------------------------------------------------------

  /** The node evaluator is only ever handed a declared variant. */
  lemma NodeShapeUsesDeclaredVariant(node: Node, selected: bool, hovered: bool, cfg: StyleConfig<ShapeVariant>,
                                     values: (Option<ShapeVariant>, Node) -> ShapeStyle)
    ensures exists v: Variant :: cfg.Get(v).Some? && NodeShape(node, selected, hovered, cfg, values) == values(cfg.Get(v), node)
  {
    if hovered && cfg.hover.Some? {
      assert cfg.Get(Hover).Some?;
    } else if selected && cfg.selected.Some? {
      assert cfg.Get(Selected).Some?;
    } else {
      assert cfg.Get(Normal).Some?;
    }
  }

  /** A selected edge without a `selected` variant hands the evaluator an absent declaration,
      rather than falling back to hover or normal. */
  lemma EdgeStrokeUncheckedSelected(edge: Edge, hovered: bool, cfg: EdgeConfig,
                                    values: (Option<StrokeVariant>, Edge) -> StrokeStyle)
    requires cfg.selected.None?
    ensures EdgeStroke(edge, true, hovered, cfg, values) == values(None, edge)
  {
  }

  /** Opposite precedence: with both flags set and every variant declared, a node shows its hover
      variant and an edge its selected variant. */
  lemma PrecedenceIsOpposite(node: Node, edge: Edge,
                             ncfg: StyleConfig<ShapeVariant>, ecfg: EdgeConfig,
                             nvalues: (Option<ShapeVariant>, Node) -> ShapeStyle,
                             evalues: (Option<StrokeVariant>, Edge) -> StrokeStyle)
    requires ncfg.hover.Some? && ncfg.selected.Some?
    requires ecfg.hover.Some? && ecfg.selected.Some?
    ensures NodeShape(node, true, true, ncfg, nvalues) == nvalues(ncfg.hover, node)
    ensures EdgeStroke(edge, true, true, ecfg, evalues) == evalues(ecfg.selected, edge)
  {
  }

  /** Label text, given an evaluated label whose `text` is the applied function or the kept name:
      the function's value, or the named attribute, or "" when the node lacks that attribute. */
  lemma LabelTextResolution(node: Node, cfg: LabelConfig, evaluated: LabelStyle)
    requires evaluated.text == ResolvedText(cfg.text, node)
    ensures cfg.text.TextFunction? ==> LabelText(node, cfg, evaluated) == cfg.text.format(node)
    ensures cfg.text.TextField? && cfg.text.name in node.attrs ==>
      LabelText(node, cfg, evaluated) == node.attrs[cfg.text.name]
    ensures cfg.text.TextField? && cfg.text.name !in node.attrs ==> LabelText(node, cfg, evaluated) == ""
  {
  }
}

=== FILE: views.dfy ===
/** The observable node and edge states: the stored flags together with the fields derived
    from them and from the graph data (Vue's `computed` fields, here plain functions). */
module Views {
  import opened Wrappers
  import opened Graph
  import opened Style
  import opened EdgeGroups
  import opened EdgePositions
  import opened StateStore

  /** The collaborators whose code is not part of this model: `Config.values` for shapes,
      labels and strokes, and `calculateEdgePosition`. */
  datatype Evaluators = Evaluators(
    shape: (Option<ShapeVariant>, Node) -> ShapeStyle,
    labelStyle: (LabelConfig, Node) -> LabelStyle,
    stroke: (Option<StrokeVariant>, Edge) -> StrokeStyle,
    geometry: Geometry)

  datatype NodeState = NodeState(shape: ShapeStyle, labelStyle: LabelStyle, labelText: string, selected: bool, hovered: bool)

  datatype EdgeState = EdgeState(stroke: StrokeStyle, selected: bool, hovered: bool, position: LinePosition)

  /** A node's state as read through its `computed` fields. */
  function NodeStateOf(node: Node, flags: Flags, cfg: NodeConfig, ev: Evaluators): (r: NodeState)
    ensures r.selected == flags.selected && r.hovered == flags.hovered
    ensures r.shape == ev.shape(cfg.shape.Get(FirstApplicable(NodePriority, flags.selected, flags.hovered,
                                                              v => cfg.shape.Get(v).Some?)), node)
    ensures r.labelStyle == ev.labelStyle(cfg.labelConfig, node)
    ensures cfg.labelConfig.text.TextFunction? ==> r.labelText == r.labelStyle.text
    ensures cfg.labelConfig.text.TextField? && r.labelStyle.text in node.attrs ==> r.labelText == node.attrs[r.labelStyle.text]
    ensures cfg.labelConfig.text.TextField? && r.labelText != "" ==> r.labelStyle.text in node.attrs
  {
    var evaluated := ev.labelStyle(cfg.labelConfig, node);
    NodeState(NodeShape(node, flags.selected, flags.hovered, cfg.shape, ev.shape),
              evaluated, LabelText(node, cfg.labelConfig, evaluated), flags.selected, flags.hovered)
  }

  /** An edge's state as read through its `computed` fields. */
  function EdgeStateOf(edges: Edges, id: Id, flags: Flags, cfg: EdgeConfig, positions: Positions,
                       groups: EdgeGroupStates, scale: real, ev: Evaluators): (r: EdgeState)
    requires id in edges
    ensures r.selected == flags.selected && r.hovered == flags.hovered
    ensures r.stroke == ev.stroke(cfg.Get(FirstApplicable(EdgePriority, flags.selected, flags.hovered,
                                                          v => v == Selected || cfg.Get(v).Some?)), edges[id])
    ensures r.position == ev.geometry(groups, id, PositionOr(positions, edges[id].source),
                                      PositionOr(positions, edges[id].target), scale)
  {
    EdgeState(EdgeStroke(edges[id], flags.selected, flags.hovered, cfg, ev.stroke),
              flags.selected, flags.hovered,
              EdgePosition(edges, id, positions, groups, scale, ev.geometry))
  }

  /** A node and an edge that are both selected and hovered, under configs declaring all three
      variants: the node shows its hover variant and the edge its selected variant. */
  lemma BothFlagsScenario(node: Node, edges: Edges, id: Id, ncfg: NodeConfig, ecfg: EdgeConfig,
                          positions: Positions, groups: EdgeGroupStates, scale: real, ev: Evaluators)
    requires id in edges
    requires ncfg.shape.hover.Some? && ncfg.shape.selected.Some?
    requires ecfg.hover.Some? && ecfg.selected.Some?
    ensures NodeStateOf(node, Flags(true, true), ncfg, ev).shape == ev.shape(ncfg.shape.hover, node)
    ensures EdgeStateOf(edges, id, Flags(true, true), ecfg, positions, groups, scale, ev).stroke
         == ev.stroke(ecfg.selected, edges[id])
  {
  }

  /** A node's derived fields depend on its flags only through the shape: the label and label
      text are the same whatever the flags. */
  lemma LabelIgnoresFlags(node: Node, a: Flags, b: Flags, cfg: NodeConfig, ev: Evaluators)
    ensures NodeStateOf(node, a, cfg, ev).labelStyle == NodeStateOf(node, b, cfg, ev).labelStyle
    ensures NodeStateOf(node, a, cfg, ev).labelText == NodeStateOf(node, b, cfg, ev).labelText
  {
  }
}

=== FILE: watchers.dfy ===
/** `provideStates`: the initial population of the node and edge states, and the six watch
    callbacks as explicit transitions `(stores, new snapshot, previous snapshot) -> stores`. */
module Watchers {
  import opened Graph
  import opened EdgeGroups
  import opened StateStore
  import opened FlagSync
  import opened StructuralSync

  // ---------------------------------------------------------------------------
  // Initial population
  // ---------------------------------------------------------------------------

  /** `ids.forEach(id => create state(id, selected.has(id), false))`. */
  function CreateEach(states: map<Id, Flags>, ids: seq<Id>, selected: set<Id>): (r: map<Id, Flags>)
    ensures r.Keys == states.Keys + Elems(ids)
    ensures forall id | id in r :: r[id] == if id in ids then Flags(id in selected, false) else states[id]
    decreases |ids|
  {
    if |ids| == 0 then states
    else CreateEach(states[ids[0] := Flags(ids[0] in selected, false)], ids[1..], selected)
  }

  /** The stores right after `provideStates`: one state per node id and per edge id, selected when
      the id is in the selected set and never hovered; the interaction sets and the layout are as
      given, and the edge groups are the ones built from the initial graph. */
  function ProvideStates(nodeIds: seq<Id>, edgeIds: seq<Id>,
                         selectedNodes: set<Id>, hoveredNodes: set<Id>,
                         selectedEdges: set<Id>, hoveredEdges: set<Id>,
                         positions: Positions, groups: EdgeGroupStates): (r: Stores)
    ensures r.nodes.states.Keys == Elems(nodeIds)
    ensures forall id | id in r.nodes.states :: r.nodes.states[id] == Flags(id in selectedNodes, false)
    ensures r.edges.states.Keys == Elems(edgeIds)
    ensures forall id | id in r.edges.states :: r.edges.states[id] == Flags(id in selectedEdges, false)
    ensures r.nodes.selected == selectedNodes && r.nodes.hovered == hoveredNodes
    ensures r.edges.selected == selectedEdges && r.edges.hovered == hoveredEdges
    ensures r.positions == positions && r.groups == groups
  {
    Stores(
      EntityStore(CreateEach(map[], nodeIds, selectedNodes), selectedNodes, hoveredNodes),
      EntityStore(CreateEach(map[], edgeIds, selectedEdges), selectedEdges, hoveredEdges),
      positions, groups)
  }

  /** At startup the selected flags mirror the selected sets; the hovered flags mirror the hovered
      sets exactly when no initial id is in them. */
  lemma ProvideStatesMirrors(nodeIds: seq<Id>, edgeIds: seq<Id>,
                             selectedNodes: set<Id>, hoveredNodes: set<Id>,
                             selectedEdges: set<Id>, hoveredEdges: set<Id>,
                             positions: Positions, groups: EdgeGroupStates)
    ensures var r := ProvideStates(nodeIds, edgeIds, selectedNodes, hoveredNodes, selectedEdges, hoveredEdges, positions, groups);
      && Mirrors(r.nodes.states, SelectedFlag, selectedNodes)
      && Mirrors(r.edges.states, SelectedFlag, selectedEdges)
      && (Mirrors(r.nodes.states, HoveredFlag, hoveredNodes) <==> Elems(nodeIds) !! hoveredNodes)
      && (Mirrors(r.edges.states, HoveredFlag, hoveredEdges) <==> Elems(edgeIds) !! hoveredEdges)
  {
  }

  // ---------------------------------------------------------------------------
  // Flag watchers
  // ---------------------------------------------------------------------------

  /** The `selectedNodes` watcher. */
  function OnSelectedNodes(s: Stores, next: seq<Id>, prev: seq<Id>): (r: Stores)
    ensures DiffApplied(s.nodes.states, r.nodes.states, SelectedFlag, next, prev)
    ensures r == s.(nodes := s.nodes.(states := r.nodes.states))
  {
    s.(nodes := s.nodes.(states := SyncFlag(s.nodes.states, SelectedFlag, next, prev)))
  }

  /** The `hoveredNodes` watcher. */
  function OnHoveredNodes(s: Stores, next: seq<Id>, prev: seq<Id>): (r: Stores)
    ensures DiffApplied(s.nodes.states, r.nodes.states, HoveredFlag, next, prev)
    ensures r == s.(nodes := s.nodes.(states := r.nodes.states))
  {
    s.(nodes := s.nodes.(states := SyncFlag(s.nodes.states, HoveredFlag, next, prev)))
  }

  /** The `selectedEdges` watcher. */
  function OnSelectedEdges(s: Stores, next: seq<Id>, prev: seq<Id>): (r: Stores)
    ensures DiffApplied(s.edges.states, r.edges.states, SelectedFlag, next, prev)
    ensures r == s.(edges := s.edges.(states := r.edges.states))
  {
    s.(edges := s.edges.(states := SyncFlag(s.edges.states, SelectedFlag, next, prev)))
  }

  /** The `hoveredEdges` watcher. */
  function OnHoveredEdges(s: Stores, next: seq<Id>, prev: seq<Id>): (r: Stores)
    ensures DiffApplied(s.edges.states, r.edges.states, HoveredFlag, next, prev)
    ensures r == s.(edges := s.edges.(states := r.edges.states))
  {
    s.(edges := s.edges.(states := SyncFlag(s.edges.states, HoveredFlag, next, prev)))
  }

  // ---------------------------------------------------------------------------
  // Structural watchers
  // ---------------------------------------------------------------------------

  /** The node id-set watcher: appeared ids get fresh states (no layout entry is made for them),
      vanished ids are scrubbed from the layout, both node interaction sets and the states. */
  function OnNodeIds(s: Stores, idSet: seq<Id>, prev: seq<Id>): (r: Stores)
    ensures r.nodes.states.Keys == (s.nodes.states.Keys + Added(idSet, prev)) - Gone(idSet, prev)
    ensures s.nodes.states.Keys == Elems(prev) ==> r.nodes.states.Keys == Elems(idSet)
    ensures forall id | id in r.nodes.states ::
      r.nodes.states[id] == if id in Added(idSet, prev) then Fresh else s.nodes.states[id]
    ensures r.positions == s.positions - Gone(idSet, prev)
    ensures r.nodes.selected == s.nodes.selected - Gone(idSet, prev)
    ensures r.nodes.hovered == s.nodes.hovered - Gone(idSet, prev)
    ensures r.edges == s.edges && r.groups == s.groups
  {
    RemoveNodes(s.(nodes := s.nodes.(states := AddStates(s.nodes.states, idSet, prev))), prev, idSet)
  }

  /** The edge id-set watcher: appeared ids get fresh states (and are not added to the edge
      groups), vanished ids are scrubbed from both edge interaction sets and the states. */
  function OnEdgeIds(s: Stores, idSet: seq<Id>, prev: seq<Id>): (r: Stores)
    ensures r.edges.states.Keys == (s.edges.states.Keys + Added(idSet, prev)) - Gone(idSet, prev)
    ensures s.edges.states.Keys == Elems(prev) ==> r.edges.states.Keys == Elems(idSet)
    ensures forall id | id in r.edges.states ::
      r.edges.states[id] == if id in Added(idSet, prev) then Fresh else s.edges.states[id]
    ensures r.edges.selected == s.edges.selected - Gone(idSet, prev)
    ensures r.edges.hovered == s.edges.hovered - Gone(idSet, prev)
    ensures r.nodes == s.nodes && r.positions == s.positions && r.groups == s.groups
  {
    RemoveEdges(s.(edges := s.edges.(states := AddStates(s.edges.states, idSet, prev))), prev, idSet)
  }

  /** Idempotent removal: when no id appears and the vanished ids have no state and are in no
      node interaction set, the node states and both node interaction sets are unchanged (the
      layout entries of the vanished ids are still deleted). */
  lemma RemovingAbsentNodesIsNoOp(s: Stores, idSet: seq<Id>, prev: seq<Id>)
    requires Added(idSet, prev) == {}
    requires Gone(idSet, prev) !! (s.nodes.states.Keys + s.nodes.selected + s.nodes.hovered)
    ensures OnNodeIds(s, idSet, prev).nodes == s.nodes
  {
  }

  /** A node id that appears while it is already in the selected (hovered) set gets an
      unselected (unhovered) state and stays in the set: the flag no longer mirrors the set. */
  lemma AddedNodeStartsUnflagged(s: Stores, idSet: seq<Id>, prev: seq<Id>, id: Id)
    requires id in idSet && id !in prev
    ensures var r := OnNodeIds(s, idSet, prev);
      && id in r.nodes.states && r.nodes.states[id] == Fresh
      && (id in s.nodes.selected ==> id in r.nodes.selected && !Mirrors(r.nodes.states, SelectedFlag, r.nodes.selected))
      && (id in s.nodes.hovered ==> id in r.nodes.hovered && !Mirrors(r.nodes.states, HoveredFlag, r.nodes.hovered))
  {
  }

  /** The same for an edge id and the edge interaction sets. */
  lemma AddedEdgeStartsUnflagged(s: Stores, idSet: seq<Id>, prev: seq<Id>, id: Id)
    requires id in idSet && id !in prev
    ensures var r := OnEdgeIds(s, idSet, prev);
      && id in r.edges.states && r.edges.states[id] == Fresh
      && (id in s.edges.selected ==> id in r.edges.selected && !Mirrors(r.edges.states, SelectedFlag, r.edges.selected))
      && (id in s.edges.hovered ==> id in r.edges.hovered && !Mirrors(r.edges.states, HoveredFlag, r.edges.hovered))
  {
  }

  /** When no appearing id is already selected or hovered, the node id-set watcher keeps the node
      flags mirroring the node interaction sets. */
  lemma OnNodeIdsKeepsMirrors(s: Stores, idSet: seq<Id>, prev: seq<Id>)
    requires Mirrors(s.nodes.states, SelectedFlag, s.nodes.selected)
    requires Mirrors(s.nodes.states, HoveredFlag, s.nodes.hovered)
    requires Added(idSet, prev) !! (s.nodes.selected + s.nodes.hovered)
    ensures var r := OnNodeIds(s, idSet, prev);
      Mirrors(r.nodes.states, SelectedFlag, r.nodes.selected) && Mirrors(r.nodes.states, HoveredFlag, r.nodes.hovered)
  {
  }

  /** The same for the edge id-set watcher and the edge interaction sets. */
  lemma OnEdgeIdsKeepsMirrors(s: Stores, idSet: seq<Id>, prev: seq<Id>)
    requires Mirrors(s.edges.states, SelectedFlag, s.edges.selected)
    requires Mirrors(s.edges.states, HoveredFlag, s.edges.hovered)
    requires Added(idSet, prev) !! (s.edges.selected + s.edges.hovered)
    ensures var r := OnEdgeIds(s, idSet, prev);
      Mirrors(r.edges.states, SelectedFlag, r.edges.selected) && Mirrors(r.edges.states, HoveredFlag, r.edges.hovered)
  {
  }

  // ---------------------------------------------------------------------------
  // Any history of changes
  // ---------------------------------------------------------------------------

  /** The last value each watcher has seen of its source. */
  datatype Snapshots = Snapshots(nodeIds: seq<Id>, edgeIds: seq<Id>,
                                 selectedNodes: seq<Id>, hoveredNodes: seq<Id>,
                                 selectedEdges: seq<Id>, hoveredEdges: seq<Id>)

  /** One change the application makes, given as the new contents of the changed source. */
  datatype Change =
    | NodeIdsChanged(ids: seq<Id>)
    | EdgeIdsChanged(ids: seq<Id>)
    | SelectedNodesChanged(ids: seq<Id>)
    | HoveredNodesChanged(ids: seq<Id>)
    | SelectedEdgesChanged(ids: seq<Id>)
    | HoveredEdgesChanged(ids: seq<Id>)

  datatype Engine = Engine(stores: Stores, seen: Snapshots)

  /** The engine right after `provideStates`, each watcher holding its source's initial value. */
  function Start(nodeIds: seq<Id>, edgeIds: seq<Id>,
                 selectedNodes: seq<Id>, hoveredNodes: seq<Id>,
                 selectedEdges: seq<Id>, hoveredEdges: seq<Id>,
                 positions: Positions, groups: EdgeGroupStates): (r: Engine)
    ensures Complete(r)
    ensures r.seen == Snapshots(nodeIds, edgeIds, selectedNodes, hoveredNodes, selectedEdges, hoveredEdges)
    ensures r.stores.nodes.selected == Elems(selectedNodes) && r.stores.nodes.hovered == Elems(hoveredNodes)
    ensures r.stores.edges.selected == Elems(selectedEdges) && r.stores.edges.hovered == Elems(hoveredEdges)
    ensures Settled(r)
  {
    Engine(
      ProvideStates(nodeIds, edgeIds, Elems(selectedNodes), Elems(hoveredNodes),
                    Elems(selectedEdges), Elems(hoveredEdges), positions, groups),
      Snapshots(nodeIds, edgeIds, selectedNodes, hoveredNodes, selectedEdges, hoveredEdges))
  }

  /** The node id-set watcher, then the selected and hovered node watchers, which see their sets
      lose the vanished ids. */
  function NodeIdsStep(e: Engine, ids: seq<Id>): (r: Engine)
    ensures r.seen == e.seen.(nodeIds := ids, selectedNodes := r.seen.selectedNodes, hoveredNodes := r.seen.hoveredNodes)
    ensures Elems(r.seen.selectedNodes) == Elems(e.seen.selectedNodes) - Gone(ids, e.seen.nodeIds)
    ensures Elems(r.seen.hoveredNodes) == Elems(e.seen.hoveredNodes) - Gone(ids, e.seen.nodeIds)
    ensures r.stores == OnNodeIds(e.stores, ids, e.seen.nodeIds)
  {
    var w := e.seen;
    var gone := Without(w.nodeIds, ids);
    var scrubbed := OnNodeIds(e.stores, ids, w.nodeIds);
    var selected := OnSelectedNodes(scrubbed, Without(w.selectedNodes, gone), w.selectedNodes);
    DroppingStatelessIdsIsNoOp(scrubbed.nodes.states, SelectedFlag, w.selectedNodes, gone);
    DroppingStatelessIdsIsNoOp(scrubbed.nodes.states, HoveredFlag, w.hoveredNodes, gone);
    Engine(OnHoveredNodes(selected, Without(w.hoveredNodes, gone), w.hoveredNodes),
           w.(nodeIds := ids, selectedNodes := Without(w.selectedNodes, gone), hoveredNodes := Without(w.hoveredNodes, gone)))
  }

  /** The edge id-set watcher, then the selected and hovered edge watchers, which see their sets
      lose the vanished ids. */
  function EdgeIdsStep(e: Engine, ids: seq<Id>): (r: Engine)
    ensures r.seen == e.seen.(edgeIds := ids, selectedEdges := r.seen.selectedEdges, hoveredEdges := r.seen.hoveredEdges)
    ensures Elems(r.seen.selectedEdges) == Elems(e.seen.selectedEdges) - Gone(ids, e.seen.edgeIds)
    ensures Elems(r.seen.hoveredEdges) == Elems(e.seen.hoveredEdges) - Gone(ids, e.seen.edgeIds)
    ensures r.stores == OnEdgeIds(e.stores, ids, e.seen.edgeIds)
  {
    var w := e.seen;
    var gone := Without(w.edgeIds, ids);
    var scrubbed := OnEdgeIds(e.stores, ids, w.edgeIds);
    var selected := OnSelectedEdges(scrubbed, Without(w.selectedEdges, gone), w.selectedEdges);
    DroppingStatelessIdsIsNoOp(scrubbed.edges.states, SelectedFlag, w.selectedEdges, gone);
    DroppingStatelessIdsIsNoOp(scrubbed.edges.states, HoveredFlag, w.hoveredEdges, gone);
    Engine(OnHoveredEdges(selected, Without(w.hoveredEdges, gone), w.hoveredEdges),
           w.(edgeIds := ids, selectedEdges := Without(w.selectedEdges, gone), hoveredEdges := Without(w.hoveredEdges, gone)))
  }

  /** The application makes change `c`, then the watcher of the changed source runs against the
      snapshot it saw last and records the new one. When the node (edge) id-set watcher deletes
      vanished ids from the selected and hovered sets, those sets have changed too, so their
      watchers run next, against the snapshot they saw last, and record what is left. */
  function Step(e: Engine, c: Change): (r: Engine)
    ensures c.NodeIdsChanged? ==>
      && r.seen == e.seen.(nodeIds := c.ids, selectedNodes := r.seen.selectedNodes, hoveredNodes := r.seen.hoveredNodes)
      && Elems(r.seen.selectedNodes) == Elems(e.seen.selectedNodes) - Gone(c.ids, e.seen.nodeIds)
      && Elems(r.seen.hoveredNodes) == Elems(e.seen.hoveredNodes) - Gone(c.ids, e.seen.nodeIds)
      && r.stores == OnNodeIds(e.stores, c.ids, e.seen.nodeIds)
    ensures c.EdgeIdsChanged? ==>
      && r.seen == e.seen.(edgeIds := c.ids, selectedEdges := r.seen.selectedEdges, hoveredEdges := r.seen.hoveredEdges)
      && Elems(r.seen.selectedEdges) == Elems(e.seen.selectedEdges) - Gone(c.ids, e.seen.edgeIds)
      && Elems(r.seen.hoveredEdges) == Elems(e.seen.hoveredEdges) - Gone(c.ids, e.seen.edgeIds)
      && r.stores == OnEdgeIds(e.stores, c.ids, e.seen.edgeIds)
    ensures c.SelectedNodesChanged? ==>
      && r.seen == e.seen.(selectedNodes := c.ids) && r.stores.nodes.selected == Elems(c.ids)
      && r.stores == OnSelectedNodes(e.stores.(nodes := e.stores.nodes.(selected := Elems(c.ids))), c.ids, e.seen.selectedNodes)
    ensures c.HoveredNodesChanged? ==>
      && r.seen == e.seen.(hoveredNodes := c.ids) && r.stores.nodes.hovered == Elems(c.ids)
      && r.stores == OnHoveredNodes(e.stores.(nodes := e.stores.nodes.(hovered := Elems(c.ids))), c.ids, e.seen.hoveredNodes)
    ensures c.SelectedEdgesChanged? ==>
      && r.seen == e.seen.(selectedEdges := c.ids) && r.stores.edges.selected == Elems(c.ids)
      && r.stores == OnSelectedEdges(e.stores.(edges := e.stores.edges.(selected := Elems(c.ids))), c.ids, e.seen.selectedEdges)
    ensures c.HoveredEdgesChanged? ==>
      && r.seen == e.seen.(hoveredEdges := c.ids) && r.stores.edges.hovered == Elems(c.ids)
      && r.stores == OnHoveredEdges(e.stores.(edges := e.stores.edges.(hovered := Elems(c.ids))), c.ids, e.seen.hoveredEdges)
    ensures !c.NodeIdsChanged? && !c.EdgeIdsChanged? ==>
      r.stores.nodes.states.Keys == e.stores.nodes.states.Keys && r.stores.edges.states.Keys == e.stores.edges.states.Keys
    ensures r.stores.positions.Keys <= e.stores.positions.Keys && r.stores.groups == e.stores.groups
  {
    var s := e.stores;
    var w := e.seen;
    match c
    case NodeIdsChanged(ids) => NodeIdsStep(e, ids)
    case EdgeIdsChanged(ids) => EdgeIdsStep(e, ids)
    case SelectedNodesChanged(ids) =>
      Engine(OnSelectedNodes(s.(nodes := s.nodes.(selected := Elems(ids))), ids, w.selectedNodes), w.(selectedNodes := ids))
    case HoveredNodesChanged(ids) =>
      Engine(OnHoveredNodes(s.(nodes := s.nodes.(hovered := Elems(ids))), ids, w.hoveredNodes), w.(hoveredNodes := ids))
    case SelectedEdgesChanged(ids) =>
      Engine(OnSelectedEdges(s.(edges := s.edges.(selected := Elems(ids))), ids, w.selectedEdges), w.(selectedEdges := ids))
    case HoveredEdgesChanged(ids) =>
      Engine(OnHoveredEdges(s.(edges := s.edges.(hovered := Elems(ids))), ids, w.hoveredEdges), w.(hoveredEdges := ids))
  }

  function Run(e: Engine, changes: seq<Change>): Engine
    decreases |changes|
  {
    if |changes| == 0 then e else Run(Step(e, changes[0]), changes[1..])
  }

  /** Exactly one state per current node id and per current edge id. */
  ghost predicate Complete(e: Engine) {
    && e.stores.nodes.states.Keys == Elems(e.seen.nodeIds)
    && e.stores.edges.states.Keys == Elems(e.seen.edgeIds)
  }

  /** Every watcher keeps the state key sets equal to the current id sets. */
  lemma StepKeepsComplete(e: Engine, c: Change)
    requires Complete(e)
    ensures Complete(Step(e, c))
  {
  }

  /** Structural completeness: after any history of additions, removals, selection and hover
      changes, the node (edge) states are exactly the current node (edge) ids, and the layout
      has gained no entry. */
  lemma {:induction false} RunKeepsComplete(e: Engine, changes: seq<Change>)
    requires Complete(e)
    ensures Complete(Run(e, changes))
    ensures Run(e, changes).stores.positions.Keys <= e.stores.positions.Keys
    ensures Run(e, changes).stores.groups == e.stores.groups
    decreases |changes|
  {
    if |changes| > 0 {
      StepKeepsComplete(e, changes[0]);
      RunKeepsComplete(Step(e, changes[0]), changes[1..]);
    }
  }

  /** Every flag watcher's snapshot holds exactly the ids of the interaction set it watches. */
  ghost predicate Settled(e: Engine) {
    && Elems(e.seen.selectedNodes) == e.stores.nodes.selected
    && Elems(e.seen.hoveredNodes) == e.stores.nodes.hovered
    && Elems(e.seen.selectedEdges) == e.stores.edges.selected
    && Elems(e.seen.hoveredEdges) == e.stores.edges.hovered
  }

  /** Every watcher, the flag watchers re-run after a structural one included, leaves each flag
      watcher's snapshot equal to the set it watches. */
  lemma StepKeepsSettled(e: Engine, c: Change)
    requires Settled(e)
    ensures Settled(Step(e, c))
  {
  }

  /** Snapshot agreement over any history: the flag watchers never lag behind their sets. */
  lemma {:induction false} RunKeepsSettled(e: Engine, changes: seq<Change>)
    requires Settled(e)
    ensures Settled(Run(e, changes))
    decreases |changes|
  {
    if |changes| > 0 {
      StepKeepsSettled(e, changes[0]);
      RunKeepsSettled(Step(e, changes[0]), changes[1..]);
    }
  }

  /** Every flag mirrors the interaction set the application currently holds. */
  ghost predicate Mirrored(e: Engine) {
    && Mirrors(e.stores.nodes.states, SelectedFlag, e.stores.nodes.selected)
    && Mirrors(e.stores.nodes.states, HoveredFlag, e.stores.nodes.hovered)
    && Mirrors(e.stores.edges.states, SelectedFlag, e.stores.edges.selected)
    && Mirrors(e.stores.edges.states, HoveredFlag, e.stores.edges.hovered)
  }

  /** A change that adds no id the application already holds in the corresponding selected or
      hovered set. */
  ghost predicate AddsNoFlagged(e: Engine, c: Change) {
    match c
    case NodeIdsChanged(ids) =>
      Added(ids, e.seen.nodeIds) !! (e.stores.nodes.selected + e.stores.nodes.hovered)
    case EdgeIdsChanged(ids) =>
      Added(ids, e.seen.edgeIds) !! (e.stores.edges.selected + e.stores.edges.hovered)
    case _ => true
  }

  /** Every change of the history, applied in turn, adds no already flagged id. */
  ghost predicate AddsNoFlaggedRun(e: Engine, changes: seq<Change>)
    decreases |changes|
  {
    |changes| > 0 ==> AddsNoFlagged(e, changes[0]) && AddsNoFlaggedRun(Step(e, changes[0]), changes[1..])
  }

  /** Each watcher keeps every flag mirroring the application's sets, unless it adds an already
      flagged id. */
  lemma StepKeepsMirrored(e: Engine, c: Change)
    requires Mirrored(e) && Settled(e)
    requires AddsNoFlagged(e, c)
    ensures Mirrored(Step(e, c))
  {
    var s := e.stores;
    var w := e.seen;
    match c
    case NodeIdsChanged(ids) => OnNodeIdsKeepsMirrors(s, ids, w.nodeIds);
    case EdgeIdsChanged(ids) => OnEdgeIdsKeepsMirrors(s, ids, w.edgeIds);
    case SelectedNodesChanged(ids) => SyncFlagMirrors(s.nodes.states, SelectedFlag, ids, w.selectedNodes);
    case HoveredNodesChanged(ids) => SyncFlagMirrors(s.nodes.states, HoveredFlag, ids, w.hoveredNodes);
    case SelectedEdgesChanged(ids) => SyncFlagMirrors(s.edges.states, SelectedFlag, ids, w.selectedEdges);
    case HoveredEdgesChanged(ids) => SyncFlagMirrors(s.edges.states, HoveredFlag, ids, w.hoveredEdges);
  }

  /** Flag mirroring: along any history that never adds an id that is already selected or hovered,
      `state[id].selected` and `state[id].hovered` stay equal to membership of `id` in the
      selected and hovered sets the application holds. */
  lemma {:induction false} RunKeepsMirrored(e: Engine, changes: seq<Change>)
    requires Mirrored(e) && Settled(e)
    requires AddsNoFlaggedRun(e, changes)
    ensures Mirrored(Run(e, changes))
    decreases |changes|
  {
    if |changes| > 0 {
      StepKeepsMirrored(e, changes[0]);
      StepKeepsSettled(e, changes[0]);
      RunKeepsMirrored(Step(e, changes[0]), changes[1..]);
    }
  }

  /** The engine starts mirrored when no initial node or edge id is already hovered. */
  lemma StartIsMirrored(nodeIds: seq<Id>, edgeIds: seq<Id>,
                        selectedNodes: seq<Id>, hoveredNodes: seq<Id>,
                        selectedEdges: seq<Id>, hoveredEdges: seq<Id>,
                        positions: Positions, groups: EdgeGroupStates)
    requires Elems(nodeIds) !! Elems(hoveredNodes) && Elems(edgeIds) !! Elems(hoveredEdges)
    ensures Mirrored(Start(nodeIds, edgeIds, selectedNodes, hoveredNodes, selectedEdges, hoveredEdges, positions, groups))
  {
  }

  /** A node that vanishes while selected and comes back is unselected, and selecting it again
      selects it: the selected watcher saw the set lose it when the node id-set watcher dropped it. */
  lemma ReselectingReturnedNode(positions: Positions, groups: EdgeGroupStates)
    ensures var e := Run(Start(["a"], [], ["a"], [], [], [], positions, groups),
                         [NodeIdsChanged([]), NodeIdsChanged(["a"]), SelectedNodesChanged(["a"])]);
      && e.stores.nodes.selected == {"a"} && e.stores.nodes.states["a"] == Flags(true, false)
  {
  }
}

=== FILE: wrappers.dfy ===
/** An optional value: JavaScript's `undefined` on one side, a present value on the other. */
module Wrappers {

  datatype Option<+T> = None | Some(value: T)
}
